=== FILE: README.md ===
# Application workflow back office: a Dafny model

This project models the request-handling rules of an administrative back
office for utility-service applications: New Installation (new
subscriptions), Evacuation and New Connection. It covers the Express back
end's status handlers, document routes, token gate and user rules, and the
list bookkeeping the three React pages do around a status change.

Modules:

- `Applications`: the four statuses and how a request body's `status` is
  parsed, the three kinds, the document columns (`Slot`), the application row
  and a kind's table (`map<int, Row>`).
- `StatusWorkflow`: the three `PUT .../:id/status` handlers. Each validates the
  status before any storage access. Each then overwrites the status with no
  transition graph and stamps its kind's column: `processed_at` for New
  Installation, `updated_at` for Evacuation, nothing for New Connection.
  Every handler returns the table, the queries it issued and its response.
- `DocumentGate`: the per-kind `switch` from document key to column, and the
  file routes.
- `AuthGate`: `authenticateToken`, including JavaScript's `split(' ')`.
- `Routes`: the gate composed with the handlers.
- `Accounts`: login, registration and the role endpoint.
- `Listing`: the three list routes, in `ORDER BY ... DESC` order: rows without a timestamp first, then newest first.
- `Json`, `StatusList`, `Pages`: the pages' optimistic update, the
  replacement by the server row, the revert, the status chip lookups, the
  selector fallback and the document viewer.

Modelling notes:

- Storage failure is one `dbUp` flag per request. When it is false, the first
  query throws and the route's `catch` answers 500.
- The clock (`NOW()`, `CURRENT_TIMESTAMP`) is the `now` parameter.
- bcrypt, JWT signing and JWT verification are function parameters.
- The `information_schema` column check of the New Connection file route is
  the `columnExists` parameter.
- The Evacuation status update's `RETURNING` list omits the two document
  columns. So its response row carries no documents, while the other two
  kinds return the whole row.
- The New Connection page asks for document key `permit`, but its route only
  accepts `permit_document`. The model keeps this mismatch:
  `Pages.ConnectionPermitKeyRefused` shows that request is always a 400.

Behaviours of the code worth knowing:

- A header that is present but empty short-circuits
  `authHeader && authHeader.split(' ')[1]` to `""`. That is not `null`, so it
  goes to verification, not to the 401. The 403 then comes from the verifier
  refusing an empty token, which jsonwebtoken does. Verification is a
  parameter here, so `AuthGate.EmptyHeaderIsForbidden` states the 403 under
  the assumption that the verifier rejects `""`.
- Registration reports any `23505` as "Email already exists". So a `user_id`
  from the sequence that a row already holds also gets that 400. This cannot
  happen while every key is below the sequence
  (`Accounts.RegisterKeepsIdsBelowNext`).
- A New Installation put back to `pending` still gets `processed_at`. So a
  processing stamp does not imply the application has left `pending`
  (`StatusWorkflow.PendingCanCarryProcessedAt`).
- `processed_by_user_id` is never written by any status handler, the New
  Installation one included.
- A stored document of zero bytes is sent with 200, because a Buffer is
  truthy. Only the Evacuation page then treats the empty body as an error.

## Model

| member | source | states |
|---|---|---|
| Applications.StatusName | backend/src/index.js:363 | every status is sent as one of the four accepted names |
| Applications.ParseStatus | backend/src/index.js:431-434 | a body value is accepted exactly when it is one of the four strings, and then it is that status's name |
| Applications.ParseStatusName | backend/src/index.js:601-604 | every status's name is accepted back as that status |
| Applications.StatusNameInjective | backend/src/index.js:363 | distinct statuses have distinct names |
| Applications.ColumnNameInjective | backend/src/index.js:511-540 | distinct document slots have distinct column names, so each `fileColumn` string names one column |
| StatusWorkflow.Restamp | backend/src/index.js:384-385 | the written row has the requested status and the stamp chosen by the SET clause; creation time, processor, details and documents are kept |
| StatusWorkflow.UpdateWhereId | backend/src/index.js:450-453 | an update by key keeps the table's keys and every other row; it returns one row when the key exists, and none otherwise. That row is the stored row after the SET clause: the requested status, the kind's stamp (`processed_at` or `updated_at` set to the clock), and every other column kept |
| StatusWorkflow.RestampChangesOnlyStatusAndStamp | backend/src/index.js:384-385 | a status write changes only the status and the kind's stamp column |
| StatusWorkflow.UpdateEvacuationStatus | backend/src/index.js:356-421 | invalid status: 400, no query, table unchanged; storage down: 500 after the SELECT; missing id: 404 after the SELECT, table unchanged; otherwise SELECT then UPDATE, only this row's status and `updated_at` change, and the reply is the new row without its document columns |
| StatusWorkflow.UpdateInstallationStatus | backend/src/index.js:424-477 | the same order; the stamp is `processed_at`; the reply is the whole updated row; the zero-row 500 cannot occur when the check and the update see the same table |
| StatusWorkflow.UpdateConnectionStatus | backend/src/index.js:594-623 | invalid status: 400 with no query; otherwise one UPDATE that also decides 404; no timestamp changes; the reply is the updated row |
| StatusWorkflow.UpdateStatus | backend/src/index.js:356-623 | for any kind: success exactly when the status is valid, storage is up and the row exists; failures leave the table unchanged; other rows and the key set never change; the stored and returned status is the requested one |
| StatusWorkflow.AnyStatusFollowsAny | backend/src/index.js:382-386 | from any prior status, any of the four can be set |
| StatusWorkflow.RepeatedUpdateIsIdempotent | backend/src/index.js:450-453 | repeating a status change at the same clock gives the same table and the same reply |
| StatusWorkflow.UpdatePreservesValidStore | backend/src/index.js:363-366 | status changes keep every stored status one of the four names |
| StatusWorkflow.PendingCanCarryProcessedAt | backend/src/index.js:451 | a New Installation set to `pending` has `processed_at` set |
| DocumentGate.SlotFor | backend/src/index.js:204-219 | a key selects a column exactly when it is in the kind's key list |
| DocumentGate.KeyOf | backend/src/index.js:667-676 | each column of a kind has a key that selects it |
| DocumentGate.DocumentKeyCounts | backend/src/index.js:513-544 | the kinds accept 4, 2 and 9 keys, with no key listed twice |
| DocumentGate.SlotForOnto | backend/src/index.js:204-219 | accepted keys select only the kind's own columns, and every column is reachable |
| DocumentGate.KeyOfInvertsSlotFor | backend/src/index.js:667-676 | an accepted key is the key of the column it selects |
| DocumentGate.SlotForInjective | backend/src/index.js:513-544 | two keys of a kind never select the same column |
| DocumentGate.SelectDocument | backend/src/index.js:221-232 | a missing row and a NULL column are the same 404; a present value is sent unchanged as `application/pdf` |
| DocumentGate.FetchDocument | backend/src/index.js:508-572 | an unknown key is a 400 with no query; a success returns exactly the stored column; with a known key and storage up, 404 exactly when the row or the column is missing; storage down gives 500; the connection route looks the column up before reading the row, and a missing column is a 400 |
| DocumentGate.StoredDocumentRoundTrip | backend/src/index.js:683-689 | bytes stored in a slot come back byte for byte, as a PDF |
| DocumentGate.UnknownKeyIgnoresStorage | backend/src/index.js:217-218 | an unknown key gets the same 400 whatever the table and the storage state |
| AuthGate.Split | backend/src/index.js:250 | the fields contain no space, there is at least one, and joining them with spaces gives the header back |
| AuthGate.SplitHasSecondField | backend/src/index.js:250-252 | a second field exists exactly when the header contains a space |
| AuthGate.SplitSecondField | backend/src/index.js:250 | the second field of the split is the text between the first space and the next space or the end |
| AuthGate.SecondFieldUnique | backend/src/index.js:250 | a header has only one second field |
| AuthGate.ExtractToken | backend/src/index.js:249-252 | no token exactly when the header is absent, or non-empty without a space; an empty header yields the empty token; otherwise the token is the second field |
| AuthGate.Authenticate | backend/src/index.js:248-262 | no token: 401; a token that does not verify: 403; otherwise the decoded claims |
| AuthGate.MissingTokenIs401 | backend/src/index.js:252 | 401 exactly for an absent header or a non-empty header without a space |
| AuthGate.EmptyHeaderIsForbidden | backend/src/index.js:249-257 | an empty header hands `""` to verification; when the verifier rejects it, the answer is 403, not 401 |
| AuthGate.BearerHeaderCarriesToken | backend/src/index.js:250 | `Bearer <token>` hands exactly `<token>` to verification |
| Routes.GuardedUpdateStatus | backend/src/index.js:356 | a refused request gets the gate's status with no query and no change; otherwise the status handler runs |
| Routes.GuardedFetchDocument | backend/src/index.js:199 | a refused request gets the gate's status with no query; otherwise the file handler runs |
| Routes.GuardedSetAdminRole | backend/src/index.js:626 | a refused request leaves the users unchanged; otherwise the role handler runs, whatever the caller's own role |
| Routes.NoTokenNoEffect | backend/src/index.js:252 | every request with no header, or with a non-empty header that has no space, is 401 with no query and no change |
| Routes.BadTokenNoEffect | backend/src/index.js:254-258 | a token that fails verification is 403 with no query and no change |
| Routes.AnyCallerCanPromote | backend/src/index.js:626-634 | a caller whose own role is `user` can make any existing user an admin |
| Accounts.FindByEmail | backend/src/index.js:95-96 | the first row with the email, if any; a missing email matches nothing |
| Accounts.Login | backend/src/index.js:91-129 | unknown email or wrong password: 401 `Invalid credentials`; success only with a matching password, returning the signed claims and the user's public fields; a known email with no password in the body is a 500 |
| Accounts.LoginFailuresIndistinguishable | backend/src/index.js:98-105 | an unknown email and a wrong password give the identical response |
| Accounts.Register | backend/src/index.js:132-150 | duplicate email, or a sequence key a row already holds: 400; any other failure: 500; both leave the table unchanged; success appends one user with the hashed password, the sequence key and role `user` |
| Accounts.RegisterKeepsIdsBelowNext | backend/src/index.js:27 | while every `user_id` is below the sequence, the key registration draws is free, and registration keeps that invariant |
| Accounts.RegisterKeepsEmailsUnique | backend/src/index.js:144-145 | registration keeps emails unique |
| Accounts.RegisterThenLogin | backend/src/index.js:136-140 | a user who just registered, into a table whose keys are below the sequence, can log in with the same password |
| Accounts.PromoteWhereId | backend/src/index.js:631-634 | rows with the key get role `admin`; other rows are unchanged |
| Accounts.FindById | backend/src/index.js:636 | the first row with the key, if any |
| Accounts.SetAdminRole | backend/src/index.js:626-646 | the role is always `admin`; no row with that key: 404 and no change; only the matching rows' roles change; the reply's `user` field is the updated row itself, `password_hash` included |
| Accounts.SetAdminRoleIdempotent | backend/src/index.js:630-634 | promoting twice is the same as promoting once |
| Listing.Insert | backend/src/index.js:164 | inserting keeps a list in descending order (undated rows first, then newest first), adds exactly the new entry (the result is the old list's multiset plus the entry), and keeps keys distinct when the key is fresh |
| Listing.UndatedListedFirst | backend/src/index.js:583 | in a list in descending order, every row above a row with a NULL timestamp also has a NULL timestamp, because PostgreSQL sorts NULL first in descending order |
| Listing.ListApplications | backend/src/index.js:575-591 | every shown row of the table exactly once, with its stored content, undated rows first and then newest first; as many entries as shown rows, and for the two unfiltered kinds as many as the table holds |
| Listing.JoinProcessor | backend/src/index.js:158-162 | the processor's email and name when `processed_by_user_id` names a user; both NULL otherwise |
| Listing.ListInstallations | backend/src/index.js:153-172 | exactly the `new_installation` rows, each once, undated rows first and then newest first, each carrying the email and name of the user in `processed_by_user_id`, or NULL when there is none |
| StatusList.SetStatusWhere | frontend/src/pages/EvacuationRequests.js:124-126 | same length; matching entries get the new status; other entries are unchanged |
| StatusList.ReplaceWhere | frontend/src/pages/EvacuationRequests.js:147-149 | same length; matching entries become the server row; other entries are unchanged |
| StatusList.FindWhere | frontend/src/pages/EvacuationRequests.js:167 | `find` gives nothing exactly when no entry has the key, and otherwise the first entry that has it |
| StatusList.FirstMatch | frontend/src/pages/EvacuationRequests.js:167 | the first entry with the key, or none when no entry has it |
| StatusList.Optimistic | frontend/src/pages/EvacuationRequests.js:123-131 | the list gets the optimistic edit; the selected application gets the new status only when its key matches |
| StatusList.StatusChange | frontend/src/pages/EvacuationRequests.js:113-178 | on success, the pre-call list with matching entries replaced by the server row, and a matching selected application replaced by it too; on error, exactly the pre-call list, and a matching selected application keeps its optimistic fields but takes the status of the first pre-call entry with its key, or `undefined` when there is none |
| StatusList.OptimisticChangesOnlyStatus | frontend/src/pages/NewConnectionApplications.js:103-105 | the optimistic edit changes only `status`, only on matching entries, and keeps length and order |
| StatusList.OptimisticKeepsKeys | frontend/src/pages/NewSubscriptions.js:93-95 | entries match the key after the edit exactly when they matched before |
| StatusList.EchoedAnswerKeepsOptimisticList | frontend/src/pages/NewConnectionApplications.js:125-127 | a server row equal to the optimistic entry leaves the optimistic list in place |
| StatusList.RejectedRestoresSnapshot | frontend/src/pages/NewSubscriptions.js:134-137 | after an error the whole page state is the pre-call one, when the selected application agreed with its list entry |
| StatusList.RejectedWithoutEntryDropsStatus | frontend/src/pages/EvacuationRequests.js:165-168 | after an error, an selected application with no list entry gets status `undefined` |
| Pages.RequestedDocumentKeys | frontend/src/pages/NewConnectionApplications.js:360-435 | each page asks for distinct keys; the Evacuation and New Subscriptions pages ask for exactly their routes' keys; the New Connection page asks only for route keys and `permit` |
| Pages.RequestedKeysMatchSwitch | frontend/src/pages/NewSubscriptions.js:389-444 | on the Evacuation and New Subscriptions pages, every document column has a button, and no button's request is refused as an unknown key |
| Pages.ConnectionPermitKeyRefused | frontend/src/pages/NewConnectionApplications.js:401-408 | the `permit` request is always a 400 with no query, and no button of the page reaches the `permit_document_data` column |
| Pages.StatusColor | frontend/src/pages/EvacuationRequests.js:229-242 | the four statuses get warning, info, success and error; every other value gets `default` |
| Pages.StatusLabel | frontend/src/pages/NewSubscriptions.js:190-203 | the four statuses get their Turkish labels; every other value is shown unchanged |
| Pages.StatusLookupsDistinguishStatuses | frontend/src/pages/NewConnectionApplications.js:153-181 | distinct statuses get distinct colours and labels, never `default` |
| Pages.SelectorValue | frontend/src/pages/NewSubscriptions.js:255 | a falsy status shows as `pending`; any other value shows as it is |
| Pages.SelectorShowsStoredStatus | frontend/src/pages/NewConnectionApplications.js:277 | the selector never shows a falsy value, and shows a stored status unchanged |
| Pages.ViewDocument | frontend/src/pages/EvacuationRequests.js:180-227 | errors show an error; the Evacuation page also refuses a zero-size body; anything else is opened with its type and bytes |
| Pages.EvacuationOpensOnlyStoredDocuments | frontend/src/pages/EvacuationRequests.js:204-207 | the Evacuation page opens a document exactly when a non-empty one is stored, and opens those exact bytes as a PDF |
| Pages.PageStatusChange | frontend/src/pages/NewConnectionApplications.js:94-151 | a page's status change keeps the list length, leaves entries with other keys alone, and puts the server row at matching entries |
| Pages.SubscriptionsMatchOnApplicationId | frontend/src/pages/NewSubscriptions.js:82-147 | on New Subscriptions an entry whose `id` matches but whose `application_id` does not is untouched |
| Pages.RowJson | backend/src/index.js:618 | the response object carries the row's key and status |
| Pages.StatusChangeEndToEnd | frontend/src/pages/NewSubscriptions.js:102-118 | when the back end accepts the change, every matching entry shows the chosen status; when it refuses, the list is the pre-call one |

## Left out

- The PostgreSQL pool, the `CREATE TABLE` bootstrap and SQL text are left out. The tables are abstract maps and sequences, and the columns are the ones the handlers read, not the declared schema.
- A route `:id` that is not an integer is not modelled, because ids are integers here. In the source such an id makes the query throw, which is a 500.
- Body fields that are JSON values other than strings are not modelled for login and registration: there, fields are optional strings. Status bodies are modelled as any scalar JSON value.
- JWT signing, verification and expiry, and bcrypt hashing and comparison, are foreign cryptography. They are parameters.
- The `information_schema` column check depends on a live catalogue. It is the `columnExists` parameter.
- The race between the existence check and the update is left out because the model is single-threaded. Because of this, the New Installation zero-row 500 is modelled but unreachable.
- A failure that happens after some queries succeeded is not modelled: `dbUp` covers the whole request.
- `SERIAL` sequence gaps after a failed insert are not modelled: `nextId` advances only on success.
- The single-application detail routes (`GET .../:id`), `/api/test-db`, `/api/protected`, the unauthenticated `/update-role` and all logging are not part of this model.
- React rendering, MUI layout, axios, `localStorage`, Blob URLs and `window.open`, the `setTimeout` error clearing, snackbars, `formatDate` and the loading flags are UI, network or date-library work.
- `express.json()` parses every body before the token check runs. So a malformed JSON body is a 400 even with no token. Bodies are modelled as already-parsed values, so `Routes.GuardedUpdateStatus` does not express this.
- Accounts.Register: does not model the `VARCHAR(255)` limit on `email` or the `VARCHAR(100)` limit on `full_name`. PostgreSQL rejects a longer value, which is a 500, unless the excess is only spaces, which are trimmed. Its success condition ignores these limits and uses only `UNIQUE` and `NOT NULL`.
- Accounts.SetAdminRole: the success reply's constant `message` ("Kullanıcı rolü başarıyla güncellendi") is not modelled; the result carries only the `user` field.
- StatusWorkflow.UpdateInstallationStatus: its 500 also carries the driver's `error.message` and `error.detail`. These are the driver's text, and `HttpError` keeps only `message`.
- StatusWorkflow.UpdateStatus: ids are unbounded integers. The `id` columns are 32-bit (`SERIAL`, from -2147483648 to 2147483647). PostgreSQL rejects a route id outside that range. So for a valid status with storage up, the source answers 500 where the model answers 404.
- DocumentGate.FetchDocument: for the same reason, an accepted key with an id outside the 32-bit range is a 500 in the source, where the model answers 404.
- Accounts.SetAdminRole: for the same reason, a `userId` outside the 32-bit range is a 500 in the source. The model answers 404.
- JavaScript numbers are modelled as integers; `NaN` and fractional ids are not modelled.
- Layout.js, Dashboard.js, ApplicationDetails.js and App.js are UI and routing, and are not part of this model.

=== FILE: accounts.dfy ===
/**
 * The user rules: login, registration and the role endpoint. Password
 * hashing and comparison, and token signing, are parameters: they stand for
 * bcrypt and the JWT library.
 */
module Accounts {
  import opened Wrappers
  import opened Applications
  import opened AuthGate

  /** A `users` row. */
  datatype User = User(userId: int, email: string, passwordHash: string, fullName: string, role: string)

  /** The `users` table in insertion order, and the next value of its `SERIAL` key. */
  datatype UserTable = UserTable(rows: seq<User>, nextId: int)

  /**
   * Every `user_id` is below the `SERIAL` sequence's next value, as when
   * every user came in through registration.
   */
  ghost predicate IdsBelowNext(t: UserTable) {
    forall i :: 0 <= i < |t.rows| ==> t.rows[i].userId < t.nextId
  }

  /** `email` is `UNIQUE`. */
  ghost predicate UniqueEmails(t: UserTable) {
    forall i, j :: 0 <= i < j < |t.rows| ==> t.rows[i].email != t.rows[j].email
  }

  /** The first row `SELECT * FROM users WHERE email = $1` returns; a missing email matches nothing. */
  function FindByEmail(rows: seq<User>, email: Option<string>): (r: Option<nat>)
    ensures r.Some? <==> email.Some? && exists i :: 0 <= i < |rows| && rows[i].email == email.value
    ensures r.Some? ==> r.value < |rows| && rows[r.value].email == email.value
    ensures r.Some? ==> forall i :: 0 <= i < r.value ==> rows[i].email != email.value
  {
    if email.None? || |rows| == 0 then None
    else if rows[0].email == email.value then Some(0)
    else match FindByEmail(rows[1..], email)
      case None => None
      case Some(i) => Some(i + 1)
  }

  /** The body of a successful login: the signed token and the public user fields. */
  datatype Session = Session(token: string, email: string, fullName: string, role: string)

  const InvalidCredentials: HttpError := HttpError(401, "Invalid credentials")
  const AccountServerError: HttpError := HttpError(500, "Server error")

  /**
   * `POST /api/login`. An unknown email and a wrong password give the same
   * 401. A missing password makes the comparison throw, which is a 500.
   */
  function Login(t: UserTable, email: Option<string>, password: Option<string>, dbUp: bool,
                 passwordMatches: (string, string) -> bool, sign: Claims -> string): (r: Result<Session, HttpError>)
    ensures !dbUp ==> r == Failure(AccountServerError)
    ensures dbUp && FindByEmail(t.rows, email).None? ==> r == Failure(InvalidCredentials)
    ensures r.Success? ==>
      var u := t.rows[FindByEmail(t.rows, email).value];
      && dbUp && password.Some? && passwordMatches(password.value, u.passwordHash)
      && r.value == Session(sign(Claims(u.userId, u.email, u.role)), u.email, u.fullName, u.role)
    ensures dbUp && FindByEmail(t.rows, email).Some? && password.None? ==> r == Failure(AccountServerError)
    ensures dbUp && FindByEmail(t.rows, email).Some? && password.Some? ==>
      var u := t.rows[FindByEmail(t.rows, email).value];
      (r.Success? <==> passwordMatches(password.value, u.passwordHash))
      && (r.Failure? ==> r.error == InvalidCredentials)
  {
    if !dbUp then Failure(AccountServerError)
    else match FindByEmail(t.rows, email)
      case None => Failure(InvalidCredentials)
      case Some(i) =>
        var u := t.rows[i];
        match password
        case None => Failure(AccountServerError)
        case Some(p) =>
          if !passwordMatches(p, u.passwordHash) then Failure(InvalidCredentials)
          else Success(Session(sign(Claims(u.userId, u.email, u.role)), u.email, u.fullName, u.role))
  }

  /** A caller cannot tell an unknown email from a wrong password. */
  lemma LoginFailuresIndistinguishable(t: UserTable, unknown: string, known: string, wrong: string,
                                       passwordMatches: (string, string) -> bool, sign: Claims -> string, anyPassword: Option<string>)
    requires forall i :: 0 <= i < |t.rows| ==> t.rows[i].email != unknown
    requires FindByEmail(t.rows, Some(known)).Some?
    requires !passwordMatches(wrong, t.rows[FindByEmail(t.rows, Some(known)).value].passwordHash)
    ensures Login(t, Some(unknown), anyPassword, true, passwordMatches, sign)
         == Login(t, Some(known), Some(wrong), true, passwordMatches, sign)
         == Failure(InvalidCredentials)
  {
  }

  const UserCreated: string := "User created successfully"
  const EmailExists: HttpError := HttpError(400, "Email already exists")

  /**
   * `POST /api/register`: hash the password, then `INSERT`. A duplicate
   * email violates `UNIQUE` and is a 400, and so is a key from the sequence
   * that a row already holds: that violates the primary key, which raises
   * the same code 23505 and so gets the same message. The other failures modelled (no
   * password to hash, a missing `NOT NULL` field, storage down) are a 500.
   * The column length limits are not modelled. New users get the column
   * default role `user`.
   */
  function Register(t: UserTable, email: Option<string>, password: Option<string>, fullName: Option<string>,
                    dbUp: bool, hash: string -> string): (r: (UserTable, Result<string, HttpError>))
    ensures r.1.Failure? ==> r.0 == t
    ensures r.1.Failure? ==> r.1.error == EmailExists || r.1.error == AccountServerError
    ensures r.1.Success? <==>
      dbUp && password.Some? && email.Some? && fullName.Some? &&
      FindByEmail(t.rows, email).None? && FindById(t.rows, t.nextId).None?
    ensures r.1.Failure? && r.1.error == EmailExists <==>
      dbUp && password.Some? && email.Some? && fullName.Some? &&
      (FindByEmail(t.rows, email).Some? || FindById(t.rows, t.nextId).Some?)
    ensures r.1.Success? ==>
      && r.1.value == UserCreated
      && r.0.rows == t.rows + [User(t.nextId, email.value, hash(password.value), fullName.value, "user")]
      && r.0.nextId == t.nextId + 1
  {
    if password.None? || !dbUp || email.None? || fullName.None? then (t, Failure(AccountServerError))
    else if FindByEmail(t.rows, email).Some? || FindById(t.rows, t.nextId).Some? then (t, Failure(EmailExists))
    else
      var u := User(t.nextId, email.value, hash(password.value), fullName.value, "user");
      (UserTable(t.rows + [u], t.nextId + 1), Success(UserCreated))
  }

  /** Registration keeps emails unique. */
  lemma RegisterKeepsEmailsUnique(t: UserTable, email: Option<string>, password: Option<string>,
                                  fullName: Option<string>, dbUp: bool, hash: string -> string)
    requires UniqueEmails(t)
    ensures UniqueEmails(Register(t, email, password, fullName, dbUp, hash).0)
  {
  }

  /**
   * While every key is below the sequence, the key registration draws is
   * free, and registration keeps every key below the sequence.
   */
  lemma RegisterKeepsIdsBelowNext(t: UserTable, email: Option<string>, password: Option<string>,
                                  fullName: Option<string>, dbUp: bool, hash: string -> string)
    requires IdsBelowNext(t)
    ensures FindById(t.rows, t.nextId).None?
    ensures IdsBelowNext(Register(t, email, password, fullName, dbUp, hash).0)
  {
  }

  /** A user who just registered can log in with the same password. */
  lemma RegisterThenLogin(t: UserTable, email: string, password: string, fullName: string,
                          hash: string -> string, passwordMatches: (string, string) -> bool, sign: Claims -> string)
    requires forall p :: passwordMatches(p, hash(p))
    requires FindByEmail(t.rows, Some(email)).None?
    requires IdsBelowNext(t)
    ensures var t' := Register(t, Some(email), Some(password), Some(fullName), true, hash).0;
      Login(t', Some(email), Some(password), true, passwordMatches, sign)
        == Success(Session(sign(Claims(t.nextId, email, "user")), email, fullName, "user"))
  {
    var t' := Register(t, Some(email), Some(password), Some(fullName), true, hash).0;
    var i := |t.rows|;
    assert t'.rows[i].email == email;
    assert forall k :: 0 <= k < i ==> t'.rows[k] == t.rows[k];
  }

  const UserNotFound: HttpError := HttpError(404, "Kullanıcı bulunamadı")
  const RoleServerError: HttpError := HttpError(500, "Kullanıcı rolü güncellenirken bir hata oluştu")

  /** `UPDATE users SET role = 'admin' WHERE user_id = $2`, row by row. */
  function PromoteWhereId(rows: seq<User>, userId: int): (r: seq<User>)
    ensures |r| == |rows|
    ensures forall i :: 0 <= i < |rows| ==>
      r[i] == (if rows[i].userId == userId then rows[i].(role := "admin") else rows[i])
  {
    if |rows| == 0 then [] else
      [if rows[0].userId == userId then rows[0].(role := "admin") else rows[0]] + PromoteWhereId(rows[1..], userId)
  }

  /** The index of the first row with the given key. */
  function FindById(rows: seq<User>, userId: int): (r: Option<nat>)
    ensures r.Some? <==> exists i :: 0 <= i < |rows| && rows[i].userId == userId
    ensures r.Some? ==> r.value < |rows| && rows[r.value].userId == userId
    ensures r.Some? ==> forall i :: 0 <= i < r.value ==> rows[i].userId != userId
  {
    if |rows| == 0 then None
    else if rows[0].userId == userId then Some(0)
    else match FindById(rows[1..], userId)
      case None => None
      case Some(i) => Some(i + 1)
  }

  /**
   * `PUT /api/users/:userId/role`: the role is always set to `admin`,
   * whatever the request asks; no row with that key is a 404.
   */
  function SetAdminRole(t: UserTable, userId: int, dbUp: bool): (r: (UserTable, Result<User, HttpError>))
    ensures r.1.Failure? ==> r.0 == t
    ensures !dbUp ==> r.1 == Failure(RoleServerError)
    ensures dbUp && (forall i :: 0 <= i < |t.rows| ==> t.rows[i].userId != userId) ==> r.1 == Failure(UserNotFound)
    ensures r.1.Success? ==>
      && r.1.value.userId == userId && r.1.value.role == "admin"
      && |r.0.rows| == |t.rows| && r.0.nextId == t.nextId
      && (forall i :: 0 <= i < |t.rows| && t.rows[i].userId == userId ==> r.0.rows[i] == t.rows[i].(role := "admin"))
      && (forall i :: 0 <= i < |t.rows| && t.rows[i].userId != userId ==> r.0.rows[i] == t.rows[i])
    ensures dbUp && (exists i :: 0 <= i < |t.rows| && t.rows[i].userId == userId) ==> r.1.Success?
    ensures r.1.Success? ==> r.1.value == r.0.rows[FindById(t.rows, userId).value]
  {
    if !dbUp then (t, Failure(RoleServerError))
    else match FindById(t.rows, userId)
      case None => (t, Failure(UserNotFound))
      case Some(i) =>
        var rows := PromoteWhereId(t.rows, userId);
        (UserTable(rows, t.nextId), Success(rows[i]))
  }

  /** Promoting twice is the same as promoting once. */
  lemma SetAdminRoleIdempotent(t: UserTable, userId: int)
    ensures var once := SetAdminRole(t, userId, true);
      SetAdminRole(once.0, userId, true).0 == once.0
  {
    var once := SetAdminRole(t, userId, true);
    if once.1.Success? {
      var twice := SetAdminRole(once.0, userId, true);
      assert twice.1.Success? by {
        var i := FindById(t.rows, userId).value;
        assert once.0.rows[i].userId == userId;
      }
      assert twice.0.rows == once.0.rows;
    }
  }
}

=== FILE: applications.dfy ===
/**
 * The data the back office stores about an application, shared by the three
 * application kinds (New Installation, Evacuation, New Connection).
 */
module Applications {
  import opened Wrappers
  import opened Json

  /** One octet of a stored document (a PostgreSQL `bytea` value). */
  newtype byte = x: int | 0 <= x < 256

  /** The four workflow states an application may be put in. */
  datatype Status = Pending | InReview | Approved | Rejected

  /** The list every status handler checks the requested status against. */
  const ValidStatuses: seq<string> := ["pending", "in_review", "approved", "rejected"]

  /** The string a status is stored and sent as. */
  function StatusName(s: Status): (name: string)
    ensures name in ValidStatuses
  {
    match s
    case Pending => "pending"
    case InReview => "in_review"
    case Approved => "approved"
    case Rejected => "rejected"
  }

  /**
   * `validStatuses.includes(status)` on a request-body field: only one of the
   * four strings is accepted, any other value (a different string, a number,
   * a missing field) is not.
   */
  function ParseStatus(v: Value): (r: Option<Status>)
    ensures r.Some? <==> v.Str? && v.s in ValidStatuses
    ensures r.Some? ==> v == Str(StatusName(r.value))
  {
    match v
    case Str("pending") => Some(Pending)
    case Str("in_review") => Some(InReview)
    case Str("approved") => Some(Approved)
    case Str("rejected") => Some(Rejected)
    case _ => None
  }

  /** Every status survives being sent as its name and parsed back. */
  lemma ParseStatusName(s: Status)
    ensures ParseStatus(Str(StatusName(s))) == Some(s)
  {
  }

  /** Distinct statuses have distinct names. */
  lemma StatusNameInjective(s: Status, t: Status)
    ensures StatusName(s) == StatusName(t) ==> s == t
  {
  }

  /** The three application kinds, each held in a table of its own. */
  datatype Kind = NewInstallation | Evacuation | Connection

  /** The document columns (`bytea`) the file handlers read, named after their columns. */
  datatype Slot =
    | OldBillFileData | ProxyDocumentData | DaskPolicyFileData | OwnershipDocumentData
    | NufusCuzdaniData | MulkiyetBelgesiData
    | IdDocumentData | AddressDocumentData | DeedFileData | ElectricalProjectData
    | BuildingPermitData | PermitDocumentData | Law6292Data | Law3194Data

  /** The column a slot is stored in. */
  function ColumnName(slot: Slot): string {
    match slot
    case OldBillFileData => "old_bill_file_data"
    case ProxyDocumentData => "proxy_document_data"
    case DaskPolicyFileData => "dask_policy_file_data"
    case OwnershipDocumentData => "ownership_document_data"
    case NufusCuzdaniData => "nufus_cuzdani_data"
    case MulkiyetBelgesiData => "mulkiyet_belgesi_data"
    case IdDocumentData => "id_document_data"
    case AddressDocumentData => "address_document_data"
    case DeedFileData => "deed_file_data"
    case ElectricalProjectData => "electrical_project_data"
    case BuildingPermitData => "building_permit_data"
    case PermitDocumentData => "permit_document_data"
    case Law6292Data => "law_6292_data"
    case Law3194Data => "law_3194_data"
  }

  /**
   * No two slots share a column name, so the name a route puts into its
   * `SELECT` (and, for New Connection, its `information_schema` check)
   * identifies one document column.
   */
  lemma ColumnNameInjective(a: Slot, b: Slot)
    ensures ColumnName(a) == ColumnName(b) <==> a == b
  {
  }

  /**
   * One application row. `createdAt` is `submitted_at` for New Installation
   * and `created_at` for the other kinds (neither is `NOT NULL`, so it may be
   * absent); `details` is the opaque bag of
   * applicant and property fields the core never interprets; `files` holds
   * the document columns, a slot without a key being SQL NULL.
   */
  datatype Row = Row(
    status: string,
    createdAt: Option<int>,
    updatedAt: Option<int>,
    processedAt: Option<int>,
    processedBy: Option<int>,
    details: map<string, string>,
    files: map<Slot, seq<byte>>)
  {
    /** The content of one document column. */
    function File(slot: Slot): Option<seq<byte>> {
      if slot in files then Some(files[slot]) else None
    }
  }

  /** One kind's table, keyed by its primary key. */
  type Store = map<int, Row>

  /** The status column only ever holds one of the four names. */
  ghost predicate ValidStore(store: Store) {
    forall id :: id in store ==> store[id].status in ValidStatuses
  }

  /** A storage round-trip a handler issues, in the order it issues them. */
  datatype Query =
    | SelectRow(id: int)
    | UpdateRow(id: int)
    | ColumnCheck(column: string)
    | SelectSlot(id: int, slot: Slot)

  /** An error response: the HTTP status code and the `message` of its body. */
  datatype HttpError = HttpError(code: int, message: string)
}

=== FILE: auth_gate.dfy ===
/**
 * The `authenticateToken` middleware: the bearer token is the second
 * space-separated field of the `Authorization` header; no token is 401, a
 * token that does not verify is 403, and otherwise the route runs with the
 * decoded claims. Signature and expiry checking is the `verify` parameter.
 */
module AuthGate {
  import opened Wrappers
  import opened Applications

  /** The claims a token carries: `userId`, `email`, `role`. */
  datatype Claims = Claims(userId: int, email: string, role: string)

  const Unauthorized: HttpError := HttpError(401, "Unauthorized")
  const Forbidden: HttpError := HttpError(403, "Forbidden")

  /** Fields joined back with single spaces. */
  function Join(parts: seq<string>): string
    requires |parts| >= 1
  {
    if |parts| == 1 then parts[0] else parts[0] + " " + Join(parts[1..])
  }

  /** `s.split(' ')`: the space-free fields between single spaces, empty fields included. */
  function Split(s: string): (parts: seq<string>)
    ensures |parts| >= 1
    ensures forall i :: 0 <= i < |parts| ==> ' ' !in parts[i]
    ensures Join(parts) == s
  {
    if |s| == 0 then [""]
    else
      var rest := Split(s[1..]);
      if s[0] == ' ' then [""] + rest
      else
        var parts := [[s[0]] + rest[0]] + rest[1..];
        assert Join(parts) == [s[0]] + Join(rest) by { JoinCons(s[0], rest); }
        assert s == [s[0]] + s[1..];
        parts
  }

  lemma JoinCons(c: char, parts: seq<string>)
    requires |parts| >= 1
    ensures Join([[c] + parts[0]] + parts[1..]) == [c] + Join(parts)
  {
    var ps := [[c] + parts[0]] + parts[1..];
    assert ps[1..] == parts[1..];
  }

  /** A string has a second field exactly when it contains a space. */
  lemma {:induction false} SplitHasSecondField(s: string)
    ensures |Split(s)| >= 2 <==> ' ' in s
  {
    var parts := Split(s);
    if |parts| >= 2 {
      assert s == parts[0] + " " + Join(parts[1..]);
      assert s[|parts[0]|] == ' ';
    } else {
      assert s == parts[0];
    }
  }

  /** `t` is the second space-separated field of `h`, the first space being at `k`. */
  predicate FieldAfter(h: string, k: int, t: string) {
    && 0 <= k < |h| && h[k] == ' ' && ' ' !in h[..k] && ' ' !in t && k + 1 + |t| <= |h|
    && h[k + 1..k + 1 + |t|] == t && (k + 1 + |t| == |h| || h[k + 1 + |t|] == ' ')
  }

  /** `t` is the second space-separated field of `h`. */
  ghost predicate SecondField(h: string, t: string) {
    exists k :: FieldAfter(h, k, t)
  }

  lemma {:induction false} SplitSecondField(h: string)
    requires |Split(h)| >= 2
    ensures SecondField(h, Split(h)[1])
  {
    var parts := Split(h);
    var k := |parts[0]|;
    var t := parts[1];
    var tail := Join(parts[1..]);
    assert h == parts[0] + " " + tail;
    assert h[..k] == parts[0];
    assert h[k] == ' ';
    assert h[k + 1..] == tail;
    if |parts| == 2 {
      assert tail == t;
      assert k + 1 + |t| == |h|;
    } else {
      assert tail == t + " " + Join(parts[2..]);
      assert tail[|t|] == ' ';
      assert h[k + 1 + |t|] == ' ';
    }
    assert h[k + 1..k + 1 + |t|] == t;
    assert FieldAfter(h, k, t);
  }

  lemma FieldAfterUnique(h: string, k1: int, t1: string, k2: int, t2: string)
    requires FieldAfter(h, k1, t1) && FieldAfter(h, k2, t2)
    ensures k1 == k2 && t1 == t2
  {
    assert k1 == k2;
  }

  /** A header has at most one second field. */
  lemma SecondFieldUnique(h: string, t1: string, t2: string)
    requires SecondField(h, t1) && SecondField(h, t2)
    ensures t1 == t2
  {
    var k1 :| FieldAfter(h, k1, t1);
    var k2 :| FieldAfter(h, k2, t2);
    FieldAfterUnique(h, k1, t1, k2, t2);
  }

  /**
   * `authHeader && authHeader.split(' ')[1]`. An absent header gives no
   * token; an empty header short-circuits to the empty string, which is not
   * `null` and so goes on to verification.
   */
  function ExtractToken(header: Option<string>): (token: Option<string>)
    ensures token.None? <==> header.None? || (header.value != "" && ' ' !in header.value)
    ensures header == Some("") ==> token == Some("")
    ensures token.Some? && header.value != "" ==> SecondField(header.value, token.value)
  {
    match header
    case None => None
    case Some(h) =>
      if h == "" then Some("")
      else
        var parts := Split(h);
        SplitHasSecondField(h);
        if |parts| >= 2 then SplitSecondField(h); Some(parts[1]) else None
  }

  /** The middleware's decision: the claims the route runs with, or the status it sends. */
  function Authenticate(header: Option<string>, verify: string -> Option<Claims>): (r: Result<Claims, HttpError>)
    ensures r == Failure(Unauthorized) <==> ExtractToken(header).None?
    ensures r == Failure(Forbidden) <==> ExtractToken(header).Some? && verify(ExtractToken(header).value).None?
    ensures r.Success? ==> ExtractToken(header).Some? && verify(ExtractToken(header).value) == Some(r.value)
  {
    match ExtractToken(header)
    case None => Failure(Unauthorized)
    case Some(token) =>
      match verify(token)
      case None => Failure(Forbidden)
      case Some(claims) => Success(claims)
  }

  /** The header shapes that get 401: none at all, or a non-empty one without a space. */
  lemma MissingTokenIs401(header: Option<string>, verify: string -> Option<Claims>)
    ensures Authenticate(header, verify) == Failure(Unauthorized) <==>
      header.None? || (header.value != "" && ' ' !in header.value)
  {
  }

  /**
   * A present but empty header hands the empty token to verification; when
   * the verifier rejects it (jsonwebtoken refuses an empty token), the
   * answer is 403, not 401.
   */
  lemma EmptyHeaderIsForbidden(verify: string -> Option<Claims>)
    requires verify("").None?
    ensures ExtractToken(Some("")) == Some("")
    ensures Authenticate(Some(""), verify) == Failure(Forbidden)
  {
  }

  /** `Bearer <token>` hands exactly `<token>` to verification when the token has no space. */
  lemma BearerHeaderCarriesToken(token: string)
    requires ' ' !in token
    ensures ExtractToken(Some("Bearer " + token)) == Some(token)
  {
    var h := "Bearer " + token;
    assert h[6] == ' ' && h[..6] == "Bearer";
    assert h[7..7 + |token|] == token;
    assert FieldAfter(h, 6, token);
    var t := ExtractToken(Some(h));
    assert t.Some?;
    SecondFieldUnique(h, t.value, token);
  }
}

=== FILE: document_gate.dfy ===
/**
 * The three `GET .../:id/files/:fileType` handlers: a fixed switch maps a
 * document-type key to a column, an unknown key is refused before storage
 * is touched, and a stored document is sent back byte for byte as a PDF.
 */
module DocumentGate {
  import opened Wrappers
  import opened Applications

  /** The keys each kind's switch accepts, in the order its cases are written. */
  function DocumentKeys(kind: Kind): seq<string> {
    match kind
    case NewInstallation => ["old_bill", "proxy", "dask", "ownership"]
    case Evacuation => ["nufus_cuzdani", "mulkiyet_belgesi"]
    case Connection => [
      "id_document", "address_document", "ownership_document", "deed", "electrical_project",
      "building_permit", "permit_document", "law_6292", "law_3194"]
  }

  /** The `switch (fileType)` of a kind: the column a key selects, or none for `default`. */
  function SlotFor(kind: Kind, fileType: string): (r: Option<Slot>)
    ensures r.Some? <==> fileType in DocumentKeys(kind)
  {
    match kind
    case NewInstallation =>
      (match fileType
       case "old_bill" => Some(OldBillFileData)
       case "proxy" => Some(ProxyDocumentData)
       case "dask" => Some(DaskPolicyFileData)
       case "ownership" => Some(OwnershipDocumentData)
       case _ => None)
    case Evacuation =>
      (match fileType
       case "nufus_cuzdani" => Some(NufusCuzdaniData)
       case "mulkiyet_belgesi" => Some(MulkiyetBelgesiData)
       case _ => None)
    case Connection =>
      (match fileType
       case "id_document" => Some(IdDocumentData)
       case "address_document" => Some(AddressDocumentData)
       case "ownership_document" => Some(OwnershipDocumentData)
       case "deed" => Some(DeedFileData)
       case "electrical_project" => Some(ElectricalProjectData)
       case "building_permit" => Some(BuildingPermitData)
       case "permit_document" => Some(PermitDocumentData)
       case "law_6292" => Some(Law6292Data)
       case "law_3194" => Some(Law3194Data)
       case _ => None)
  }

  /** The columns of a kind's documents. */
  function SlotsOf(kind: Kind): set<Slot> {
    match kind
    case NewInstallation => {OldBillFileData, ProxyDocumentData, DaskPolicyFileData, OwnershipDocumentData}
    case Evacuation => {NufusCuzdaniData, MulkiyetBelgesiData}
    case Connection => {
      IdDocumentData, AddressDocumentData, OwnershipDocumentData, DeedFileData, ElectricalProjectData,
      BuildingPermitData, PermitDocumentData, Law6292Data, Law3194Data}
  }

  /** The key sets have four, two and nine distinct keys. */
  lemma DocumentKeyCounts()
    ensures |DocumentKeys(NewInstallation)| == 4 && |DocumentKeys(Evacuation)| == 2 && |DocumentKeys(Connection)| == 9
    ensures forall kind, i, j :: 0 <= i < j < |DocumentKeys(kind)| ==> DocumentKeys(kind)[i] != DocumentKeys(kind)[j]
  {
  }

  /** Every accepted key selects one of the kind's own columns, and every column has a key. */
  lemma SlotForOnto(kind: Kind)
    ensures forall t :: SlotFor(kind, t).Some? ==> SlotFor(kind, t).value in SlotsOf(kind)
    ensures forall slot :: slot in SlotsOf(kind) ==> exists t :: t in DocumentKeys(kind) && SlotFor(kind, t) == Some(slot)
  {
    forall slot | slot in SlotsOf(kind)
      ensures exists t :: t in DocumentKeys(kind) && SlotFor(kind, t) == Some(slot)
    {
      var t := KeyOf(kind, slot);
      assert t in DocumentKeys(kind) && SlotFor(kind, t) == Some(slot);
    }
  }

  /** The key that selects a column of the kind. */
  function KeyOf(kind: Kind, slot: Slot): (t: string)
    requires slot in SlotsOf(kind)
    ensures t in DocumentKeys(kind) && SlotFor(kind, t) == Some(slot)
  {
    match kind
    case NewInstallation =>
      (match slot
       case OldBillFileData => "old_bill"
       case ProxyDocumentData => "proxy"
       case DaskPolicyFileData => "dask"
       case OwnershipDocumentData => "ownership")
    case Evacuation =>
      (match slot
       case NufusCuzdaniData => "nufus_cuzdani"
       case MulkiyetBelgesiData => "mulkiyet_belgesi")
    case Connection =>
      (match slot
       case IdDocumentData => "id_document"
       case AddressDocumentData => "address_document"
       case OwnershipDocumentData => "ownership_document"
       case DeedFileData => "deed"
       case ElectricalProjectData => "electrical_project"
       case BuildingPermitData => "building_permit"
       case PermitDocumentData => "permit_document"
       case Law6292Data => "law_6292"
       case Law3194Data => "law_3194")
  }

  /** `KeyOf` inverts the switch: an accepted key is the key of the column it selects. */
  lemma KeyOfInvertsSlotFor(kind: Kind)
    ensures forall i :: 0 <= i < |DocumentKeys(kind)| ==>
      var t := DocumentKeys(kind)[i];
      SlotFor(kind, t).Some? && SlotFor(kind, t).value in SlotsOf(kind) && KeyOf(kind, SlotFor(kind, t).value) == t
  {
  }

  /** Two keys of a kind never select the same column. */
  lemma SlotForInjective(kind: Kind, t1: string, t2: string)
    requires SlotFor(kind, t1).Some? && SlotFor(kind, t1) == SlotFor(kind, t2)
    ensures t1 == t2
  {
  }

  /** The response of a successful fetch: a declared media type and the raw body. */
  datatype Document = Document(contentType: string, body: seq<byte>)

  const PdfType: string := "application/pdf"

  const InvalidFileType: HttpError := HttpError(400, "Invalid file type")
  const FileNotFound: HttpError := HttpError(404, "File not found")
  const FileServerError: HttpError := HttpError(500, "Server error")

  /** What a fetch leaves behind: the queries it issued and its response. Fetches never write. */
  datatype FileReply = FileReply(queries: seq<Query>, result: Result<Document, HttpError>)

  /**
   * `SELECT <column> FROM ... WHERE id = $1` and the `!row || !row[column]`
   * test: NULL and a missing row are the same 404; a present value, even an
   * empty one (a Buffer is truthy), is sent.
   */
  function SelectDocument(store: Store, id: int, slot: Slot, dbUp: bool, prior: seq<Query>): (r: FileReply)
    ensures r.queries == prior + [SelectSlot(id, slot)]
    ensures !dbUp ==> r.result == Failure(FileServerError)
    ensures dbUp && (id !in store || store[id].File(slot).None?) ==> r.result == Failure(FileNotFound)
    ensures dbUp && id in store && store[id].File(slot).Some? ==>
      r.result == Success(Document(PdfType, store[id].File(slot).value))
  {
    var queries := prior + [SelectSlot(id, slot)];
    if !dbUp then FileReply(queries, Failure(FileServerError))
    else if id !in store then FileReply(queries, Failure(FileNotFound))
    else match store[id].File(slot)
      case None => FileReply(queries, Failure(FileNotFound))
      case Some(bytes) => FileReply(queries, Success(Document(PdfType, bytes)))
  }

  /**
   * The file route of a kind. The Connection route asks the catalogue
   * whether the column exists before reading it; `columnExists` stands for
   * that `information_schema` query.
   */
  function FetchDocument(kind: Kind, store: Store, id: int, fileType: string, dbUp: bool,
                         columnExists: string -> bool): (r: FileReply)
    ensures fileType !in DocumentKeys(kind) ==> r == FileReply([], Failure(InvalidFileType))
    ensures r.result.Success? ==>
      && fileType in DocumentKeys(kind)
      && id in store
      && store[id].File(SlotFor(kind, fileType).value) == Some(r.result.value.body)
      && r.result.value.contentType == PdfType
    ensures fileType in DocumentKeys(kind) && kind != Connection ==>
      r.queries == [SelectSlot(id, SlotFor(kind, fileType).value)]
    ensures fileType in DocumentKeys(kind) && kind == Connection ==>
      var column := ColumnName(SlotFor(kind, fileType).value);
      && (!dbUp ==> r == FileReply([ColumnCheck(column)], Failure(FileServerError)))
      && (dbUp && !columnExists(column) ==> r == FileReply([ColumnCheck(column)], Failure(InvalidFileType)))
      && (dbUp && columnExists(column) ==> r.queries == [ColumnCheck(column), SelectSlot(id, SlotFor(kind, fileType).value)])
    ensures fileType in DocumentKeys(kind) && !dbUp ==> r.result == Failure(FileServerError)
    ensures fileType in DocumentKeys(kind) && dbUp && (kind != Connection || columnExists(ColumnName(SlotFor(kind, fileType).value))) ==>
      var slot := SlotFor(kind, fileType).value;
      && (id !in store || store[id].File(slot).None? <==> r.result == Failure(FileNotFound))
      && (id in store && store[id].File(slot).Some? <==> r.result.Success?)
  {
    match SlotFor(kind, fileType)
    case None => FileReply([], Failure(InvalidFileType))
    case Some(slot) =>
      if kind == Connection then
        var check := [ColumnCheck(ColumnName(slot))];
        if !dbUp then FileReply(check, Failure(FileServerError))
        else if !columnExists(ColumnName(slot)) then FileReply(check, Failure(InvalidFileType))
        else SelectDocument(store, id, slot, dbUp, check)
      else SelectDocument(store, id, slot, dbUp, [])
  }

  /** A document stored in a slot comes back exactly as stored, as a PDF. */
  lemma StoredDocumentRoundTrip(kind: Kind, store: Store, id: int, slot: Slot, bytes: seq<byte>, columnExists: string -> bool)
    requires id in store && slot in SlotsOf(kind)
    requires kind == Connection ==> columnExists(ColumnName(slot))
    ensures var stored := store[id := store[id].(files := store[id].files[slot := bytes])];
      FetchDocument(kind, stored, id, KeyOf(kind, slot), true, columnExists).result == Success(Document(PdfType, bytes))
  {
  }

  /** An unknown key is refused whatever the table holds and whether or not storage is up. */
  lemma UnknownKeyIgnoresStorage(kind: Kind, s1: Store, s2: Store, id: int, fileType: string, up1: bool, up2: bool,
                                 c1: string -> bool, c2: string -> bool)
    requires fileType !in DocumentKeys(kind)
    ensures FetchDocument(kind, s1, id, fileType, up1, c1) == FetchDocument(kind, s2, id, fileType, up2, c2)
    ensures FetchDocument(kind, s1, id, fileType, up1, c1).queries == []
  {
  }
}

=== FILE: json.dfy ===
/**
 * The fragment of JavaScript values the handlers and pages compare and copy:
 * request-body fields, and the flat objects the pages keep in their lists.
 */
module Json {

  /** A scalar JavaScript value. Numbers are the integral ids and counts the pages use. */
  datatype Value = Undefined | Null | Bool(b: bool) | Num(n: int) | Str(s: string)

  /** A plain object; a key that is absent reads as `undefined`. */
  type Obj = map<string, Value>

  /** Property access `o[k]`. */
  function Field(o: Obj, k: string): Value {
    if k in o then o[k] else Undefined
  }

  /** The values JavaScript treats as false in a condition. */
  predicate Falsy(v: Value) {
    v.Undefined? || v.Null? || v == Bool(false) || v == Num(0) || v == Str("")
  }

  /** The expression `a || b`: the first operand unless it is falsy. */
  function Or(a: Value, b: Value): Value {
    if Falsy(a) then b else a
  }
}

=== FILE: listing.dfy ===
/**
 * The three list routes: every row of the kind's table, newest first
 * (`ORDER BY submitted_at DESC` / `created_at DESC`). The New Installation
 * list keeps only rows whose `application_type` is `new_installation` and
 * joins the name and email of the user in `processed_by_user_id`.
 */
module Listing {
  import opened Wrappers
  import opened Applications
  import opened Accounts

  /** A listed row with its key. */
  type Entry = (int, Row)

  /**
   * `ORDER BY ... DESC` may put a row stamped `a` above one stamped `b`:
   * PostgreSQL sorts NULL first in descending order, then later times
   * before earlier ones.
   */
  predicate AtOrAbove(a: Option<int>, b: Option<int>) {
    a.None? || (b.Some? && a.value >= b.value)
  }

  /** Rows are in `ORDER BY ... DESC` order: undated ones first, then newest first. */
  ghost predicate NewestFirst(s: seq<Entry>) {
    forall i, j :: 0 <= i < j < |s| ==> AtOrAbove(s[i].1.createdAt, s[j].1.createdAt)
  }

  /** In such a list every row above an undated one is undated too. */
  lemma UndatedListedFirst(s: seq<Entry>, j: int)
    requires NewestFirst(s) && 0 <= j < |s| && s[j].1.createdAt.None?
    ensures forall i :: 0 <= i < j ==> s[i].1.createdAt.None?
  {
  }

  /** No key is listed twice. */
  ghost predicate DistinctKeys(s: seq<Entry>) {
    forall i, j :: 0 <= i < j < |s| ==> s[i].0 != s[j].0
  }

  /** Insert one entry into a newest-first list. */
  function Insert(s: seq<Entry>, e: Entry): (r: seq<Entry>)
    requires NewestFirst(s)
    ensures NewestFirst(r)
    ensures |r| == |s| + 1
    ensures forall x :: x in r <==> x in s || x == e
    ensures multiset(r) == multiset(s) + multiset{e}
    ensures DistinctKeys(s) && (forall x :: x in s ==> x.0 != e.0) ==> DistinctKeys(r)
  {
    if |s| == 0 || AtOrAbove(e.1.createdAt, s[0].1.createdAt) then
      assert forall i :: 0 <= i < |s| ==> AtOrAbove(e.1.createdAt, s[i].1.createdAt);
      [e] + s
    else
      var tail := Insert(s[1..], e);
      HeadBoundsTail(s, e, tail);
      assert s == [s[0]] + s[1..];
      [s[0]] + tail
  }

  lemma HeadBoundsTail(s: seq<Entry>, e: Entry, tail: seq<Entry>)
    requires NewestFirst(s) && |s| > 0 && !AtOrAbove(e.1.createdAt, s[0].1.createdAt)
    requires NewestFirst(tail)
    requires forall x :: x in tail <==> x in s[1..] || x == e
    requires DistinctKeys(s[1..]) && (forall x :: x in s[1..] ==> x.0 != e.0) ==> DistinctKeys(tail)
    ensures NewestFirst([s[0]] + tail)
    ensures forall x :: x in [s[0]] + tail <==> x in s || x == e
    ensures DistinctKeys(s) && (forall x :: x in s ==> x.0 != e.0) ==> DistinctKeys([s[0]] + tail)
  {
    var r := [s[0]] + tail;
    assert s == [s[0]] + s[1..];
    forall j | 0 < j < |r|
      ensures AtOrAbove(r[0].1.createdAt, r[j].1.createdAt)
      ensures DistinctKeys(s) && (forall x :: x in s ==> x.0 != e.0) ==> r[0].0 != r[j].0
    {
      assert r[j] == tail[j - 1];
      assert r[j] in tail;
      if r[j] != e {
        var k :| 0 <= k < |s[1..]| && s[1..][k] == r[j];
        assert s[k + 1] == r[j];
      } else {
        assert e in s || AtOrAbove(r[0].1.createdAt, r[j].1.createdAt);
      }
    }
    if DistinctKeys(s) && (forall x :: x in s ==> x.0 != e.0) {
      assert DistinctKeys(s[1..]);
      assert DistinctKeys(tail);
      forall i, j | 0 <= i < j < |r| ensures r[i].0 != r[j].0 {
        if i > 0 {
          assert r[i] == tail[i - 1] && r[j] == tail[j - 1];
        }
      }
    }
  }

  /** The New Installation list's `WHERE application_type = 'new_installation'`. */
  predicate IsNewInstallation(row: Row) {
    "application_type" in row.details && row.details["application_type"] == "new_installation"
  }

  /** Whether a kind's list route shows a row. */
  predicate Listed(kind: Kind, row: Row) {
    kind != NewInstallation || IsNewInstallation(row)
  }

  /** The keys of the rows a kind's list route shows. */
  ghost function ListedKeys(kind: Kind, store: Store): set<int> {
    set id | id in store && Listed(kind, store[id])
  }

  /**
   * The rows a kind's list route returns: exactly the listed rows of the
   * table, each once with its stored content, newest first. Rows with equal
   * creation times may come in any order.
   */
  method ListApplications(kind: Kind, store: Store) returns (out: seq<Entry>)
    ensures NewestFirst(out)
    ensures DistinctKeys(out)
    ensures forall i :: 0 <= i < |out| ==> out[i].0 in store && out[i].1 == store[out[i].0] && Listed(kind, out[i].1)
    ensures forall id :: id in store && Listed(kind, store[id]) ==> exists i :: 0 <= i < |out| && out[i].0 == id
    ensures |out| == |ListedKeys(kind, store)|
    ensures kind != NewInstallation ==> |out| == |store|
  {
    out := [];
    var remaining := store.Keys;
    ghost var shown: set<int> := {};
    while remaining != {}
      invariant remaining <= store.Keys
      invariant shown == ListedKeys(kind, store) - remaining
      invariant Lists(kind, store, out, shown)
      decreases remaining
    {
      var id := Pick(remaining);
      ShownGrows(kind, store, remaining, id);
      out := Admit(kind, store, out, shown, id);
      shown := shown + (if Listed(kind, store[id]) then {id} else {});
      remaining := remaining - {id};
    }
    ListsEverything(kind, store, out);
  }

  /** `out` lists exactly the rows under the keys `shown`, once each, newest first. */
  ghost predicate Lists(kind: Kind, store: Store, out: seq<Entry>, shown: set<int>) {
    && NewestFirst(out)
    && DistinctKeys(out)
    && (forall i :: 0 <= i < |out| ==>
          out[i].0 in shown && out[i].0 in store && out[i].1 == store[out[i].0] && Listed(kind, out[i].1))
    && (forall id :: id in shown ==> exists i :: 0 <= i < |out| && out[i].0 == id)
    && |out| == |shown|
  }

  lemma ListsEverything(kind: Kind, store: Store, out: seq<Entry>)
    requires Lists(kind, store, out, ListedKeys(kind, store))
    ensures forall id :: id in store && Listed(kind, store[id]) ==> exists i :: 0 <= i < |out| && out[i].0 == id
    ensures kind != NewInstallation ==> |out| == |store|
  {
    forall id | id in store && Listed(kind, store[id])
      ensures exists i :: 0 <= i < |out| && out[i].0 == id
    {
      assert id in ListedKeys(kind, store);
    }
    if kind != NewInstallation {
      assert ListedKeys(kind, store) == store.Keys;
    }
  }

  /** One step of the listing loop: list the row under `id` if the route shows it. */
  method Admit(kind: Kind, store: Store, out: seq<Entry>, ghost shown: set<int>, id: int) returns (next: seq<Entry>)
    requires Lists(kind, store, out, shown)
    requires id in store && id !in shown
    ensures Lists(kind, store, next, shown + (if Listed(kind, store[id]) then {id} else {}))
  {
    next := out;
    if Listed(kind, store[id]) {
      InsertKeepsListing(kind, store, out, shown, id);
      next := Insert(out, (id, store[id]));
    }
  }

  lemma ShownGrows(kind: Kind, store: Store, remaining: set<int>, id: int)
    requires id in remaining && remaining <= store.Keys
    ensures ListedKeys(kind, store) - (remaining - {id})
         == (ListedKeys(kind, store) - remaining) + (if Listed(kind, store[id]) then {id} else {})
  {
  }

  lemma InsertKeepsListing(kind: Kind, store: Store, out: seq<Entry>, shown: set<int>, id: int)
    requires Lists(kind, store, out, shown)
    requires id in store && Listed(kind, store[id]) && id !in shown
    ensures Lists(kind, store, Insert(out, (id, store[id])), shown + {id})
  {
    var e := (id, store[id]);
    assert forall x :: x in out ==> x.0 != id;
    var r := Insert(out, e);
    forall other | other in shown + {id}
      ensures exists i :: 0 <= i < |r| && r[i].0 == other
    {
      if other == id {
        assert e in r;
      } else {
        var k :| 0 <= k < |out| && out[k].0 == other;
        assert out[k] in r;
      }
    }
    forall i | 0 <= i < |r|
      ensures r[i].0 in shown + {id} && r[i].0 in store && r[i].1 == store[r[i].0] && Listed(kind, r[i].1)
    {
      assert r[i] in r;
      if r[i] != e {
        var k :| 0 <= k < |out| && out[k] == r[i];
      }
    }
    assert |r| == |shown + {id}|;
  }

  /** Some key of a non-empty key set. */
  method Pick(keys: set<int>) returns (k: int)
    requires keys != {}
    ensures k in keys
  {
    EmptyOrMember(keys);
    k :| k in keys;
  }

  /** Helper for `Pick`: a witness for the `:|` choice. */
  lemma EmptyOrMember(keys: set<int>)
    ensures keys == {} || exists k :: k in keys
  {
    if !(exists k :: k in keys) {
      assert keys == {};
    }
  }

  /** A New Installation list row with its `LEFT JOIN users` columns. */
  datatype InstallationEntry = InstallationEntry(id: int, row: Row, processedByEmail: Option<string>, processedByName: Option<string>)

  /** `LEFT JOIN users u ON a.processed_by_user_id = u.user_id`: the matching user's email and name, or NULL. */
  function JoinProcessor(users: seq<User>, e: Entry): (r: InstallationEntry)
    ensures r.id == e.0 && r.row == e.1
    ensures r.processedByEmail.Some? <==>
      e.1.processedBy.Some? && exists i :: 0 <= i < |users| && users[i].userId == e.1.processedBy.value
    ensures r.processedByEmail.Some? ==>
      var u := users[FindById(users, e.1.processedBy.value).value];
      r.processedByEmail == Some(u.email) && r.processedByName == Some(u.fullName)
    ensures r.processedByEmail.None? ==> r.processedByName.None?
  {
    match e.1.processedBy
    case None => InstallationEntry(e.0, e.1, None, None)
    case Some(uid) =>
      match FindById(users, uid)
      case None => InstallationEntry(e.0, e.1, None, None)
      case Some(i) => InstallationEntry(e.0, e.1, Some(users[i].email), Some(users[i].fullName))
  }

  /** `GET /api/applications`: the New Installation rows, newest first, with their processors. */
  method ListInstallations(store: Store, users: seq<User>) returns (out: seq<InstallationEntry>)
    ensures forall i, j :: 0 <= i < j < |out| ==> AtOrAbove(out[i].row.createdAt, out[j].row.createdAt)
    ensures forall i :: 0 <= i < |out| ==> out[i].id in store && out[i].row == store[out[i].id] && IsNewInstallation(out[i].row)
    ensures forall id :: id in store && IsNewInstallation(store[id]) ==> exists i :: 0 <= i < |out| && out[i].id == id
    ensures forall i, j :: 0 <= i < j < |out| ==> out[i].id != out[j].id
    ensures forall i :: 0 <= i < |out| ==> out[i] == JoinProcessor(users, (out[i].id, out[i].row))
  {
    var rows := ListApplications(NewInstallation, store);
    out := seq(|rows|, i requires 0 <= i < |rows| => JoinProcessor(users, rows[i]));
    forall id | id in store && IsNewInstallation(store[id])
      ensures exists i :: 0 <= i < |out| && out[i].id == id
    {
      var k :| 0 <= k < |rows| && rows[k].0 == id;
      assert out[k].id == id;
    }
  }
}

=== FILE: pages.dfy ===
/**
 * What the three React pages add to the shared list bookkeeping: the key
 * field each page matches on, the document keys each page requests, the
 * status chip lookups, the status selector's fallback, and how a fetched
 * document is shown.
 */
module Pages {
  import opened Wrappers
  import opened Json
  import opened Applications
  import opened StatusWorkflow
  import opened DocumentGate
  import opened StatusList

  /** The evacuation, new-subscription and new-connection pages. */
  datatype Page = EvacuationRequests | NewSubscriptions | NewConnectionApplications

  /** The back-end kind a page talks to. */
  function KindOf(p: Page): Kind {
    match p
    case EvacuationRequests => Evacuation
    case NewSubscriptions => NewInstallation
    case NewConnectionApplications => Connection
  }

  /** The field a page identifies its entries by. */
  function KeyField(p: Page): string {
    match p
    case NewSubscriptions => "application_id"
    case _ => "id"
  }

  /** The document keys a page's detail dialog asks the back end for. */
  function RequestedDocumentKeys(p: Page): (keys: seq<string>)
    ensures forall i, j :: 0 <= i < j < |keys| ==> keys[i] != keys[j]
    ensures p != NewConnectionApplications ==> forall t :: t in keys <==> t in DocumentKeys(KindOf(p))
    ensures p == NewConnectionApplications ==> forall t :: t in keys ==> t == "permit" || t in DocumentKeys(Connection)
  {
    match p
    case EvacuationRequests => ["nufus_cuzdani", "mulkiyet_belgesi"]
    case NewSubscriptions => ["old_bill", "proxy", "dask", "ownership"]
    case NewConnectionApplications => ["deed", "electrical_project", "building_permit", "permit", "law_6292", "law_3194"]
  }

  /**
   * On the Evacuation and New Subscriptions pages every document column has
   * a button, and no button's request is refused as an unknown key.
   */
  lemma RequestedKeysMatchSwitch(p: Page, store: Store, id: int, dbUp: bool, columnExists: string -> bool)
    requires p != NewConnectionApplications
    ensures forall slot :: slot in SlotsOf(KindOf(p)) ==>
      exists t :: t in RequestedDocumentKeys(p) && SlotFor(KindOf(p), t) == Some(slot)
    ensures forall t :: t in RequestedDocumentKeys(p) ==>
      FetchDocument(KindOf(p), store, id, t, dbUp, columnExists).result != Failure(InvalidFileType)
  {
    forall slot | slot in SlotsOf(KindOf(p))
      ensures exists t :: t in RequestedDocumentKeys(p) && SlotFor(KindOf(p), t) == Some(slot)
    {
      assert KeyOf(KindOf(p), slot) in RequestedDocumentKeys(p);
    }
  }

  /**
   * The New Connection page asks for `permit`, which its route does not
   * accept (the route's key is `permit_document`): that request is a 400
   * whatever is stored, and no button of the page reaches the
   * `permit_document_data` column.
   */
  lemma ConnectionPermitKeyRefused(store: Store, id: int, dbUp: bool, columnExists: string -> bool)
    ensures "permit" in RequestedDocumentKeys(NewConnectionApplications)
    ensures FetchDocument(Connection, store, id, "permit", dbUp, columnExists) == FileReply([], Failure(InvalidFileType))
    ensures forall t :: t in RequestedDocumentKeys(NewConnectionApplications) ==> SlotFor(Connection, t) != Some(PermitDocumentData)
  {
  }

  /** The chip colour of each of the four statuses. */
  function ColorOf(s: Status): string {
    match s
    case Pending => "warning"
    case InReview => "info"
    case Approved => "success"
    case Rejected => "error"
  }

  /** The Turkish label of each of the four statuses. */
  function LabelOf(s: Status): string {
    match s
    case Pending => "Beklemede"
    case InReview => "İnceleniyor"
    case Approved => "Onaylandı"
    case Rejected => "Reddedildi"
  }

  /** `getStatusColor`: a `switch` with a `default` case, so total. */
  function StatusColor(v: Value): (color: string)
    ensures ParseStatus(v).Some? ==> color == ColorOf(ParseStatus(v).value)
    ensures ParseStatus(v).None? ==> color == "default"
  {
    match v
    case Str("pending") => "warning"
    case Str("in_review") => "info"
    case Str("approved") => "success"
    case Str("rejected") => "error"
    case _ => "default"
  }

  /** `getStatusLabel`: the four statuses get their labels; anything else is shown as it is. */
  function StatusLabel(v: Value): (shown: Value)
    ensures ParseStatus(v).Some? ==> shown == Str(LabelOf(ParseStatus(v).value))
    ensures ParseStatus(v).None? ==> shown == v
  {
    match v
    case Str("pending") => Str("Beklemede")
    case Str("in_review") => Str("İnceleniyor")
    case Str("approved") => Str("Onaylandı")
    case Str("rejected") => Str("Reddedildi")
    case _ => v
  }

  /** Every stored status has its own colour and its own label. */
  lemma StatusLookupsDistinguishStatuses(s: Status, t: Status)
    requires s != t
    ensures StatusColor(Str(StatusName(s))) != StatusColor(Str(StatusName(t)))
    ensures StatusLabel(Str(StatusName(s))) != StatusLabel(Str(StatusName(t)))
    ensures StatusColor(Str(StatusName(s))) != "default"
  {
    ParseStatusName(s);
    ParseStatusName(t);
  }

  /** `application.status || 'pending'`: the value the status selector shows. */
  function SelectorValue(entry: Obj): (v: Value)
    ensures Falsy(Field(entry, "status")) ==> v == Str("pending")
    ensures !Falsy(Field(entry, "status")) ==> v == Field(entry, "status")
  {
    Or(Field(entry, "status"), Str("pending"))
  }

  /** The selector never shows an empty value, and shows a stored status as it is. */
  lemma SelectorShowsStoredStatus(entry: Obj, s: Status)
    ensures !Falsy(SelectorValue(entry))
    ensures Field(entry, "status") == Str(StatusName(s)) ==> SelectorValue(entry) == Str(StatusName(s))
  {
  }

  /** What the page does with a document response. */
  datatype DocumentView = Opened(contentType: string, body: seq<byte>) | ShowError

  /**
   * `handleViewDocument`. The Evacuation page refuses a body of size zero;
   * the other two open whatever a 2xx carries. Any error response shows an
   * error.
   */
  function ViewDocument(p: Page, reply: Result<Document, HttpError>): (v: DocumentView)
    ensures reply.Failure? ==> v == ShowError
    ensures reply.Success? && (p != EvacuationRequests || |reply.value.body| > 0) ==>
      v == Opened(reply.value.contentType, reply.value.body)
    ensures p == EvacuationRequests && reply.Success? && |reply.value.body| == 0 ==> v == ShowError
  {
    match reply
    case Failure(_) => ShowError
    case Success(doc) =>
      if p == EvacuationRequests && |doc.body| == 0 then ShowError
      else Opened(doc.contentType, doc.body)
  }

  /** On the Evacuation page, a document is opened exactly when a non-empty one is stored. */
  lemma EvacuationOpensOnlyStoredDocuments(store: Store, id: int, fileType: string, columnExists: string -> bool)
    requires fileType in RequestedDocumentKeys(EvacuationRequests)
    ensures var v := ViewDocument(EvacuationRequests, FetchDocument(Evacuation, store, id, fileType, true, columnExists).result);
      var slot := SlotFor(Evacuation, fileType).value;
      (v.Opened? <==> id in store && store[id].File(slot).Some? && |store[id].File(slot).value| > 0)
      && (v.Opened? ==> v.body == store[id].File(slot).value && v.contentType == PdfType)
  {
  }

  /** A page's `handleStatusChange`, matching entries on the page's key field. */
  function PageStatusChange(p: Page, st: PageState, id: Value, newStatus: Value, answer: Answer): (r: PageState)
    ensures answer.Rejected? ==> r.list == st.list
    ensures |r.list| == |st.list|
    ensures forall i :: 0 <= i < |st.list| && !Matches(st.list[i], KeyField(p), id) ==> r.list[i] == st.list[i]
    ensures answer.Answered? ==> forall i :: 0 <= i < |st.list| && Matches(st.list[i], KeyField(p), id) ==> r.list[i] == answer.data
  {
    StatusChange(st, KeyField(p), id, newStatus, answer)
  }

  /**
   * The New Subscriptions page matches on `application_id`: an entry whose
   * `id` field happens to equal the target but whose `application_id` does
   * not is left alone.
   */
  lemma SubscriptionsMatchOnApplicationId(st: PageState, id: Value, newStatus: Value, answer: Answer, i: int)
    requires 0 <= i < |st.list| && Field(st.list[i], "id") == id && Field(st.list[i], "application_id") != id
    ensures PageStatusChange(NewSubscriptions, st, id, newStatus, answer).list[i] == st.list[i]
    ensures Optimistic(st, KeyField(NewSubscriptions), id, newStatus).list[i] == st.list[i]
  {
  }

  /** The body of a status response, as the page sees it: the key and the stored fields. */
  function RowJson(p: Page, id: int, row: Row): (o: Obj)
    ensures Field(o, KeyField(p)) == Num(id)
    ensures Field(o, "status") == Str(row.status)
  {
    var fields := map k | k in row.details :: Str(row.details[k]);
    fields[KeyField(p) := Num(id)]["status" := Str(row.status)]
  }

  /**
   * From the select menu to the table and back: after the back end accepts a
   * status change, every entry of the page with that key shows the chosen
   * status; when it refuses, the page's list is the one it had before.
   */
  lemma StatusChangeEndToEnd(p: Page, st: PageState, store: Store, id: int, s: Status, now: int, dbUp: bool)
    requires KeyField(p) != "status"
    ensures var reply := UpdateStatus(KindOf(p), store, id, Str(StatusName(s)), now, dbUp);
      var answer := if reply.result.Success? then Answered(RowJson(p, id, reply.result.value)) else Answer.Rejected;
      var r := PageStatusChange(p, st, Num(id), Str(StatusName(s)), answer);
      && (reply.result.Success? <==> dbUp && id in store)
      && (reply.result.Success? ==> forall i :: 0 <= i < |st.list| && Matches(st.list[i], KeyField(p), Num(id)) ==>
            Field(r.list[i], "status") == Str(StatusName(s)) && Matches(r.list[i], KeyField(p), Num(id)))
      && (reply.result.Failure? ==> r.list == st.list)
  {
    ParseStatusName(s);
  }
}

=== FILE: routes.dfy ===
/**
 * The protected routes: `authenticateToken` in front of the status, file and
 * role handlers. A request the gate refuses never reaches its handler.
 */
module Routes {
  import opened Wrappers
  import opened Json
  import opened Applications
  import opened AuthGate
  import opened StatusWorkflow
  import opened DocumentGate
  import opened Accounts

  /** `PUT .../:id/status` behind the gate. */
  function GuardedUpdateStatus(header: Option<string>, verify: string -> Option<Claims>, kind: Kind, store: Store,
                               id: int, requested: Value, now: int, dbUp: bool): (r: Reply<Row>)
    ensures Authenticate(header, verify).Failure? ==>
      r == Reply(store, [], Failure(Authenticate(header, verify).error))
    ensures Authenticate(header, verify).Success? ==> r == UpdateStatus(kind, store, id, requested, now, dbUp)
  {
    match Authenticate(header, verify)
    case Failure(e) => Reply(store, [], Failure(e))
    case Success(_) => UpdateStatus(kind, store, id, requested, now, dbUp)
  }

  /** `GET .../:id/files/:fileType` behind the gate. */
  function GuardedFetchDocument(header: Option<string>, verify: string -> Option<Claims>, kind: Kind, store: Store,
                                id: int, fileType: string, dbUp: bool, columnExists: string -> bool): (r: FileReply)
    ensures Authenticate(header, verify).Failure? ==> r == FileReply([], Failure(Authenticate(header, verify).error))
    ensures Authenticate(header, verify).Success? ==> r == FetchDocument(kind, store, id, fileType, dbUp, columnExists)
  {
    match Authenticate(header, verify)
    case Failure(e) => FileReply([], Failure(e))
    case Success(_) => FetchDocument(kind, store, id, fileType, dbUp, columnExists)
  }

  /** `PUT /api/users/:userId/role` behind the gate; the caller's own role is never consulted. */
  function GuardedSetAdminRole(header: Option<string>, verify: string -> Option<Claims>, t: UserTable,
                               userId: int, dbUp: bool): (r: (UserTable, Result<User, HttpError>))
    ensures Authenticate(header, verify).Failure? ==> r == (t, Failure(Authenticate(header, verify).error))
    ensures Authenticate(header, verify).Success? ==> r == SetAdminRole(t, userId, dbUp)
  {
    match Authenticate(header, verify)
    case Failure(e) => (t, Failure(e))
    case Success(_) => SetAdminRole(t, userId, dbUp)
  }

  /**
   * Without a token (no header, or a non-empty header with no space, such as
   * a bare `Bearer`) the status route answers 401 and neither queries nor
   * changes the table.
   */
  lemma NoTokenNoEffect(header: Option<string>, verify: string -> Option<Claims>, kind: Kind, store: Store, id: int,
                        requested: Value, now: int, dbUp: bool)
    requires header.None? || (header.value != "" && ' ' !in header.value)
    ensures GuardedUpdateStatus(header, verify, kind, store, id, requested, now, dbUp) == Reply(store, [], Failure(Unauthorized))
  {
  }

  /** A token that fails verification gets 403, with no query and no change. */
  lemma BadTokenNoEffect(token: string, verify: string -> Option<Claims>, kind: Kind, store: Store, id: int,
                         requested: Value, now: int, dbUp: bool)
    requires ' ' !in token && verify(token).None?
    ensures GuardedUpdateStatus(Some("Bearer " + token), verify, kind, store, id, requested, now, dbUp)
         == Reply(store, [], Failure(Forbidden))
  {
    BearerHeaderCarriesToken(token);
  }

  /** Any caller whose token verifies, whatever its role, can make any existing user an admin. */
  lemma AnyCallerCanPromote(token: string, verify: string -> Option<Claims>, t: UserTable, userId: int)
    requires ' ' !in token && verify(token).Some? && verify(token).value.role == "user"
    requires exists i :: 0 <= i < |t.rows| && t.rows[i].userId == userId
    ensures var r := GuardedSetAdminRole(Some("Bearer " + token), verify, t, userId, true);
      r.1.Success? && r.1.value.role == "admin"
  {
    BearerHeaderCarriesToken(token);
  }
}

=== FILE: status_list.dfy ===
/**
 * The list bookkeeping the three pages do around a status change: an
 * optimistic edit of the matching entry, then either the server's row in
 * its place or a return to the snapshot taken before the call.
 */
module StatusList {
  import opened Wrappers
  import opened Json

  /** `app[keyField] === applicationId`. */
  predicate Matches(o: Obj, keyField: string, id: Value) {
    Field(o, keyField) == id
  }

  /** `applications.map(app => app[keyField] === id ? { ...app, status: newStatus } : app)`. */
  function SetStatusWhere(list: seq<Obj>, keyField: string, id: Value, newStatus: Value): (r: seq<Obj>)
    ensures |r| == |list|
    ensures forall i :: 0 <= i < |list| ==> (Matches(list[i], keyField, id) ==> r[i] == list[i]["status" := newStatus])
    ensures forall i :: 0 <= i < |list| ==> (!Matches(list[i], keyField, id) ==> r[i] == list[i])
  {
    seq(|list|, i requires 0 <= i < |list| => if Matches(list[i], keyField, id) then list[i]["status" := newStatus] else list[i])
  }

  /** `applications.map(app => app[keyField] === id ? response.data : app)`. */
  function ReplaceWhere(list: seq<Obj>, keyField: string, id: Value, reply: Obj): (r: seq<Obj>)
    ensures |r| == |list|
    ensures forall i :: 0 <= i < |list| ==> (Matches(list[i], keyField, id) ==> r[i] == reply)
    ensures forall i :: 0 <= i < |list| ==> (!Matches(list[i], keyField, id) ==> r[i] == list[i])
  {
    seq(|list|, i requires 0 <= i < |list| => if Matches(list[i], keyField, id) then reply else list[i])
  }

  /** The index of the first entry whose key is `id`. */
  function FirstMatch(list: seq<Obj>, keyField: string, id: Value): (r: Option<nat>)
    ensures r.None? <==> forall i :: 0 <= i < |list| ==> !Matches(list[i], keyField, id)
    ensures r.Some? ==> r.value < |list| && Matches(list[r.value], keyField, id)
    ensures r.Some? ==> forall j :: 0 <= j < r.value ==> !Matches(list[j], keyField, id)
  {
    if |list| == 0 then None
    else if Matches(list[0], keyField, id) then Some(0)
    else match FirstMatch(list[1..], keyField, id)
      case None => None
      case Some(i) => Some(i + 1)
  }

  /** `list.find(app => app[keyField] === id)`. */
  function FindWhere(list: seq<Obj>, keyField: string, id: Value): (r: Option<Obj>)
    ensures r.None? <==> forall i :: 0 <= i < |list| ==> !Matches(list[i], keyField, id)
    ensures r.Some? ==> exists i :: 0 <= i < |list| && list[i] == r.value && Matches(r.value, keyField, id)
                          && forall j :: 0 <= j < i ==> !Matches(list[j], keyField, id)
  {
    match FirstMatch(list, keyField, id)
    case None => None
    case Some(i) => Some(list[i])
  }

  /**
   * The page's list and the selected application (`null` when none is). The
   * selection is kept after its detail dialog closes, so a later status
   * change from the table still rewrites it.
   */
  datatype PageState = PageState(list: seq<Obj>, selected: Option<Obj>)

  /** How the `PUT` ended: a 2xx with its body, or a thrown error. */
  datatype Answer = Answered(data: Obj) | Rejected

  /** The state right after the optimistic edit, before the server answers. */
  function Optimistic(st: PageState, keyField: string, id: Value, newStatus: Value): (r: PageState)
    ensures r.list == SetStatusWhere(st.list, keyField, id, newStatus)
    ensures r.selected.Some? <==> st.selected.Some?
    ensures st.selected.Some? && Matches(st.selected.value, keyField, id) ==> r.selected == Some(st.selected.value["status" := newStatus])
    ensures st.selected.Some? && !Matches(st.selected.value, keyField, id) ==> r.selected == st.selected
  {
    var selected :=
      match st.selected
      case Some(o) => if Matches(o, keyField, id) then Some(o["status" := newStatus]) else st.selected
      case None => None;
    PageState(SetStatusWhere(st.list, keyField, id, newStatus), selected)
  }

  /**
   * `handleStatusChange` from the state `st` in which it was called. On a
   * 2xx the snapshot list has the matching entries replaced by the server's
   * row; on an error the snapshot list comes back and the selected application
   * gets the status the snapshot's first matching entry had.
   */
  function StatusChange(st: PageState, keyField: string, id: Value, newStatus: Value, answer: Answer): (r: PageState)
    ensures answer.Rejected? ==> r.list == st.list
    ensures answer.Answered? ==> r.list == ReplaceWhere(st.list, keyField, id, answer.data)
    ensures st.selected.None? ==> r.selected.None?
    ensures st.selected.Some? && !Matches(st.selected.value, keyField, id) ==> r.selected == st.selected
    ensures st.selected.Some? && Matches(st.selected.value, keyField, id) && answer.Answered? ==> r.selected == Some(answer.data)
    ensures st.selected.Some? && Matches(st.selected.value, keyField, id) && answer.Rejected? ==>
      var before := FindWhere(st.list, keyField, id);
      r.selected == Some(Optimistic(st, keyField, id, newStatus).selected.value["status" := if before.Some? then Field(before.value, "status") else Undefined])
  {
    var shown := Optimistic(st, keyField, id, newStatus);
    match answer
    case Answered(data) =>
      var selected := if st.selected.Some? && Matches(st.selected.value, keyField, id) then Some(data) else shown.selected;
      PageState(ReplaceWhere(st.list, keyField, id, data), selected)
    case Rejected =>
      var selected :=
        if st.selected.Some? && Matches(st.selected.value, keyField, id) then
          var before := FindWhere(st.list, keyField, id);
          Some(shown.selected.value["status" := if before.Some? then Field(before.value, "status") else Undefined])
        else shown.selected;
      PageState(st.list, selected)
  }

  /** The optimistic edit touches only the `status` of matching entries; length and order are kept. */
  lemma OptimisticChangesOnlyStatus(st: PageState, keyField: string, id: Value, newStatus: Value)
    ensures var r := Optimistic(st, keyField, id, newStatus);
      && |r.list| == |st.list|
      && (forall i :: 0 <= i < |st.list| && Matches(st.list[i], keyField, id) ==> Field(r.list[i], "status") == newStatus)
      && (forall i, k :: 0 <= i < |st.list| && k != "status" ==> Field(r.list[i], k) == Field(st.list[i], k))
      && (forall i :: 0 <= i < |st.list| && !Matches(st.list[i], keyField, id) ==> r.list[i] == st.list[i])
  {
  }

  /** The edit never moves the key: entries that matched still match afterwards. */
  lemma OptimisticKeepsKeys(list: seq<Obj>, keyField: string, id: Value, newStatus: Value)
    requires keyField != "status"
    ensures forall i :: 0 <= i < |list| ==>
      (Matches(SetStatusWhere(list, keyField, id, newStatus)[i], keyField, id) <==> Matches(list[i], keyField, id))
  {
  }

  /**
   * When the server answers with exactly the optimistically edited entry
   * and a single entry matches, the final list is the optimistic one.
   */
  lemma EchoedAnswerKeepsOptimisticList(st: PageState, keyField: string, id: Value, newStatus: Value, k: int)
    requires 0 <= k < |st.list| && Matches(st.list[k], keyField, id)
    requires forall i :: 0 <= i < |st.list| && i != k ==> !Matches(st.list[i], keyField, id)
    ensures StatusChange(st, keyField, id, newStatus, Answered(st.list[k]["status" := newStatus])).list
         == Optimistic(st, keyField, id, newStatus).list
  {
  }

  /**
   * After an error the page looks as it did before the call when the selected
   * application agreed with its list entry on the status.
   */
  lemma RejectedRestoresSnapshot(st: PageState, keyField: string, id: Value, newStatus: Value)
    requires st.selected.Some? && Matches(st.selected.value, keyField, id)
    requires FindWhere(st.list, keyField, id).Some?
    requires "status" in st.selected.value
    requires st.selected.value["status"] == Field(FindWhere(st.list, keyField, id).value, "status")
    ensures StatusChange(st, keyField, id, newStatus, Rejected) == st
  {
    var r := StatusChange(st, keyField, id, newStatus, Rejected);
    assert r.selected.value == st.selected.value;
  }

  /** After an error, a selected application with no entry in the list loses its status. */
  lemma RejectedWithoutEntryDropsStatus(st: PageState, keyField: string, id: Value, newStatus: Value)
    requires st.selected.Some? && Matches(st.selected.value, keyField, id)
    requires forall i :: 0 <= i < |st.list| ==> !Matches(st.list[i], keyField, id)
    ensures Field(StatusChange(st, keyField, id, newStatus, Rejected).selected.value, "status") == Undefined
  {
  }
}

=== FILE: status_workflow.dfy ===
/**
 * The three `PUT .../:id/status` handlers. Each validates the requested
 * status before touching storage, then overwrites the status of an existing
 * row with no transition graph (any status may follow any other) and stamps
 * the kind's own timestamp.
 */
module StatusWorkflow {
  import opened Wrappers
  import opened Json
  import opened Applications

  /** What a handler leaves behind: the table, the queries it issued and its response. */
  datatype Reply<+T> = Reply(store: Store, queries: seq<Query>, result: Result<T, HttpError>)

  /** The timestamp column a status change sets, if any. */
  datatype Stamp = StampProcessedAt | StampUpdatedAt | NoStamp

  function StampOf(kind: Kind): Stamp {
    match kind
    case NewInstallation => StampProcessedAt
    case Evacuation => StampUpdatedAt
    case Connection => NoStamp
  }

  /** The 400 each handler sends for a status outside the four. */
  function InvalidStatusError(kind: Kind): HttpError {
    match kind
    case NewInstallation => HttpError(400, "Geçersiz durum değeri")
    case Evacuation => HttpError(400, "Geçersiz durum değeri.")
    case Connection => HttpError(400, "Invalid status value.")
  }

  /** The 404 each handler sends for an id with no row. */
  function NotFoundError(kind: Kind): HttpError {
    match kind
    case NewInstallation => HttpError(404, "Başvuru bulunamadı")
    case Evacuation => HttpError(404, "Başvuru bulunamadı.")
    case Connection => HttpError(404, "Connection application not found.")
  }

  /** The 500 each handler's `catch` sends when storage fails. */
  function ServerError(kind: Kind): HttpError {
    match kind
    case NewInstallation => HttpError(500, "Durum güncellenirken bir hata oluştu")
    case Evacuation => HttpError(500, "Durum güncellenirken bir hata oluştu.")
    case Connection => HttpError(500, "Server error.")
  }

  /** The row after `SET status = $1` plus the stamp, at time `now`. */
  function Restamp(row: Row, s: Status, stamp: Stamp, now: int): (r: Row)
    ensures r.status == StatusName(s) && ParseStatus(Json.Str(r.status)) == Some(s)
    ensures r.createdAt == row.createdAt && r.processedBy == row.processedBy
    ensures r.details == row.details && r.files == row.files
    ensures r.processedAt == (if stamp == StampProcessedAt then Some(now) else row.processedAt)
    ensures r.updatedAt == (if stamp == StampUpdatedAt then Some(now) else row.updatedAt)
  {
    match stamp
    case StampProcessedAt => row.(status := StatusName(s), processedAt := Some(now))
    case StampUpdatedAt => row.(status := StatusName(s), updatedAt := Some(now))
    case NoStamp => row.(status := StatusName(s))
  }

  /** `UPDATE ... WHERE id = $2 RETURNING ...`: the new table and the rows the update touched. */
  function UpdateWhereId(store: Store, id: int, s: Status, stamp: Stamp, now: int): (r: (Store, seq<Row>))
    ensures r.0.Keys == store.Keys
    ensures forall k :: k in store && k != id ==> r.0[k] == store[k]
    ensures |r.1| == (if id in store then 1 else 0)
    ensures id in store ==> r.1[0] == r.0[id]
    ensures id in store ==> r.0[id] == Restamp(store[id], s, stamp, now)
  {
    if id in store then
      var row := Restamp(store[id], s, stamp, now);
      (store[id := row], [row])
    else (store, [])
  }

  /**
   * `after` is `before` with only the status and the kind's stamp changed:
   * `processed_at` for New Installation, `updated_at` for Evacuation, no
   * timestamp for Connection; `processed_by_user_id` is never written.
   */
  ghost predicate OnlyStatusAndStamp(kind: Kind, before: Row, after: Row, s: Status, now: int) {
    && after.status == StatusName(s)
    && after.createdAt == before.createdAt
    && after.processedBy == before.processedBy
    && after.details == before.details
    && after.files == before.files
    && after.updatedAt == (if kind == Evacuation then Some(now) else before.updatedAt)
    && after.processedAt == (if kind == NewInstallation then Some(now) else before.processedAt)
  }

  lemma RestampChangesOnlyStatusAndStamp(kind: Kind, row: Row, s: Status, now: int)
    ensures OnlyStatusAndStamp(kind, row, Restamp(row, s, StampOf(kind), now), s, now)
  {
  }

  /**
   * Evacuation: validate, then `SELECT` to check existence, then `UPDATE`
   * with `updated_at = CURRENT_TIMESTAMP`. The `RETURNING` list names the
   * applicant columns but not the two document columns, so the response
   * row carries no documents.
   */
  function UpdateEvacuationStatus(store: Store, id: int, requested: Value, now: int, dbUp: bool): (r: Reply<Row>)
    ensures ParseStatus(requested).None? ==> r == Reply(store, [], Failure(InvalidStatusError(Evacuation)))
    ensures ParseStatus(requested).Some? && !dbUp ==> r == Reply(store, [SelectRow(id)], Failure(ServerError(Evacuation)))
    ensures ParseStatus(requested).Some? && dbUp && id !in store ==>
      r == Reply(store, [SelectRow(id)], Failure(NotFoundError(Evacuation)))
    ensures ParseStatus(requested).Some? && dbUp && id in store ==>
      && r.queries == [SelectRow(id), UpdateRow(id)]
      && r.store.Keys == store.Keys
      && (forall other :: other in store && other != id ==> r.store[other] == store[other])
      && OnlyStatusAndStamp(Evacuation, store[id], r.store[id], ParseStatus(requested).value, now)
      && r.result.Success?
      && r.result.value.files == map[]
      && r.result.value.(files := r.store[id].files) == r.store[id]
  {
    match ParseStatus(requested)
    case None => Reply(store, [], Failure(InvalidStatusError(Evacuation)))
    case Some(s) =>
      if !dbUp then Reply(store, [SelectRow(id)], Failure(ServerError(Evacuation)))
      else if id !in store then Reply(store, [SelectRow(id)], Failure(NotFoundError(Evacuation)))
      else
        var (store', rows) := UpdateWhereId(store, id, s, StampUpdatedAt, now);
        Reply(store', [SelectRow(id), UpdateRow(id)], Success(rows[0].(files := map[])))
  }

  /**
   * New Installation: validate, `SELECT` to check existence, then `UPDATE`
   * with `processed_at = NOW() ... RETURNING *`; an update that returns no
   * row is thrown as an error and answered with 500.
   */
  function UpdateInstallationStatus(store: Store, id: int, requested: Value, now: int, dbUp: bool): (r: Reply<Row>)
    ensures ParseStatus(requested).None? ==> r == Reply(store, [], Failure(InvalidStatusError(NewInstallation)))
    ensures ParseStatus(requested).Some? && !dbUp ==>
      r == Reply(store, [SelectRow(id)], Failure(ServerError(NewInstallation)))
    ensures ParseStatus(requested).Some? && dbUp && id !in store ==>
      r == Reply(store, [SelectRow(id)], Failure(NotFoundError(NewInstallation)))
    ensures ParseStatus(requested).Some? && dbUp && id in store ==>
      && r.queries == [SelectRow(id), UpdateRow(id)]
      && r.store.Keys == store.Keys
      && (forall other :: other in store && other != id ==> r.store[other] == store[other])
      && OnlyStatusAndStamp(NewInstallation, store[id], r.store[id], ParseStatus(requested).value, now)
      && r.result == Success(r.store[id])
  {
    match ParseStatus(requested)
    case None => Reply(store, [], Failure(InvalidStatusError(NewInstallation)))
    case Some(s) =>
      if !dbUp then Reply(store, [SelectRow(id)], Failure(ServerError(NewInstallation)))
      else if id !in store then Reply(store, [SelectRow(id)], Failure(NotFoundError(NewInstallation)))
      else
        var (store', rows) := UpdateWhereId(store, id, s, StampProcessedAt, now);
        if |rows| == 0 then Reply(store, [SelectRow(id), UpdateRow(id)], Failure(ServerError(NewInstallation)))
        else Reply(store', [SelectRow(id), UpdateRow(id)], Success(rows[0]))
  }

  /**
   * New Connection: validate, then one `UPDATE ... RETURNING *` that both
   * writes and tells whether the row exists; no timestamp is set.
   */
  function UpdateConnectionStatus(store: Store, id: int, requested: Value, dbUp: bool): (r: Reply<Row>)
    ensures ParseStatus(requested).None? ==> r == Reply(store, [], Failure(InvalidStatusError(Connection)))
    ensures ParseStatus(requested).Some? && !dbUp ==> r == Reply(store, [UpdateRow(id)], Failure(ServerError(Connection)))
    ensures ParseStatus(requested).Some? && dbUp && id !in store ==>
      r == Reply(store, [UpdateRow(id)], Failure(NotFoundError(Connection)))
    ensures ParseStatus(requested).Some? && dbUp && id in store ==>
      && r.queries == [UpdateRow(id)]
      && r.store.Keys == store.Keys
      && (forall other :: other in store && other != id ==> r.store[other] == store[other])
      && (forall now :: OnlyStatusAndStamp(Connection, store[id], r.store[id], ParseStatus(requested).value, now))
      && r.result == Success(r.store[id])
  {
    match ParseStatus(requested)
    case None => Reply(store, [], Failure(InvalidStatusError(Connection)))
    case Some(s) =>
      if !dbUp then Reply(store, [UpdateRow(id)], Failure(ServerError(Connection)))
      else
        var (store', rows) := UpdateWhereId(store, id, s, NoStamp, 0);
        if |rows| == 0 then Reply(store, [UpdateRow(id)], Failure(NotFoundError(Connection)))
        else Reply(store', [UpdateRow(id)], Success(rows[0]))
  }

  /** The status route of a kind; `now` is the database clock at the update. */
  function UpdateStatus(kind: Kind, store: Store, id: int, requested: Value, now: int, dbUp: bool): (r: Reply<Row>)
    ensures r.result.Success? <==> ParseStatus(requested).Some? && dbUp && id in store
    ensures r.result.Failure? ==> r.store == store
    ensures ParseStatus(requested).None? ==> r.result == Failure(InvalidStatusError(kind)) && r.queries == []
    ensures ParseStatus(requested).Some? && dbUp && id !in store ==> r.result == Failure(NotFoundError(kind))
    ensures ParseStatus(requested).Some? && !dbUp ==> r.result == Failure(ServerError(kind))
    ensures r.store.Keys == store.Keys
    ensures forall other :: other in store && other != id ==> r.store[other] == store[other]
    ensures r.result.Success? ==>
      && OnlyStatusAndStamp(kind, store[id], r.store[id], ParseStatus(requested).value, now)
      && r.result.value.status == requested.s
  {
    match kind
    case NewInstallation => UpdateInstallationStatus(store, id, requested, now, dbUp)
    case Evacuation => UpdateEvacuationStatus(store, id, requested, now, dbUp)
    case Connection => UpdateConnectionStatus(store, id, requested, dbUp)
  }

  /** No transition graph: from any prior status, any of the four can be set. */
  lemma AnyStatusFollowsAny(kind: Kind, store: Store, id: int, from: Status, to: Status, now: int)
    requires id in store && store[id].status == StatusName(from)
    ensures var r := UpdateStatus(kind, store, id, Str(StatusName(to)), now, true);
      r.result.Success? && r.result.value.status == StatusName(to) && r.store[id].status == StatusName(to)
  {
    ParseStatusName(to);
  }

  /** Repeating a status change (at the same clock) leaves the same table and the same response. */
  lemma RepeatedUpdateIsIdempotent(kind: Kind, store: Store, id: int, requested: Value, now: int, dbUp: bool)
    ensures var r1 := UpdateStatus(kind, store, id, requested, now, dbUp);
      var r2 := UpdateStatus(kind, r1.store, id, requested, now, dbUp);
      r2.store == r1.store && r2.result == r1.result
  {
    var r1 := UpdateStatus(kind, store, id, requested, now, dbUp);
    var r2 := UpdateStatus(kind, r1.store, id, requested, now, dbUp);
    if r1.result.Success? {
      assert r2.result.Success?;
      assert r2.store[id] == r1.store[id];
      assert r2.store == r1.store;
    }
  }

  /** Status changes keep every stored status one of the four names. */
  lemma UpdatePreservesValidStore(kind: Kind, store: Store, id: int, requested: Value, now: int, dbUp: bool)
    requires ValidStore(store)
    ensures ValidStore(UpdateStatus(kind, store, id, requested, now, dbUp).store)
  {
  }

  /**
   * A New Installation put back to `pending` keeps a `processed_at` stamp:
   * a stamp does not imply the application has left `pending`.
   */
  lemma PendingCanCarryProcessedAt(store: Store, id: int, now: int)
    requires id in store
    ensures var r := UpdateStatus(NewInstallation, store, id, Str("pending"), now, true);
      r.store[id].status == "pending" && r.store[id].processedAt == Some(now)
  {
    ParseStatusName(Pending);
  }
}

=== FILE: wrappers.dfy ===
/** Optional values and handler results, shared by every module of the model. */
module Wrappers {

  /** An optional value: SQL NULL, a missing JSON field, a row that is not there. */
  datatype Option<+T> = None | Some(value: T)

  /** The outcome of a request handler: a value, or the error response it sends. */
  datatype Result<+R, +E> = Success(value: R) | Failure(error: E)
}
